=== FILE: README.md ===
# coloured-logger, modelled in Dafny

A model of the `coloured-logger` package's `index.js`. The exported constructor resolves
its options into a configuration: whether files are used, where they are, and whether and
which log name is printed. The logger object's calls `info`, `warning`, `error` and `log`
each print one coloured console line. When files are in use, each also appends one plain
line to the output file, and for `error` to the error file as well. `addLevel` extends the
two-way `Level` table. `setLogName` replaces the printed name.

The model is pure. A clock read is a `DateTime` record of the fields `Date` reports:
day, 0-based month, full year, hours, minutes and seconds. Every call reads the clock
twice: once for the console time and once for the file stamp (index.js:117, reached from
index.js:133 and index.js:156). The two reads are separate `DateTime` parameters and may
differ. The caller-file heuristic is an
opaque `callerFile` string. The logs directory is a `logsDir` string. A call returns its
console line and its file appends as a value (`Logger.Output`) instead of performing them.

Modules, one per file:

- `Decimal` (decimal.dfy): `Number#toString` for integers of magnitude below 10^21, `padStart(2, "0")`, `substring(2)`.
- `Ansi` (ansi.dfy): the `Colour` table and a reference `Strip` that removes escape sequences.
- `DateFormat` (date_format.dfy): `_getDateString`, the `DateType` table, and parsers for its output.
- `Levels` (levels.dfy): the two-way `Level` table and `addLevel`.
- `Configuration` (config.dfy): option resolution, `_getLogName`, `setLogName`.
- `Logger` (logger.dfy): `_logMessage`, the four log calls, and the logger invariants.
- `Wrappers` (wrappers.dfy): `Option`.

Each operation is checked against an independent statement:

- The date strings and file lines have parsers, with round-trip lemmas.
- The coloured console line has `Ansi.Strip`. Stripping its escape codes leaves its own time followed by the same log name, level tag and message that the file line carries after its stamp (`Logger.ConsoleMatchesFile`). When both clock reads of a call agree, the stripped console line is exactly the file line's body (`Logger.ConsoleMatchesFileOneClock`).
- `addLevel` keeps the `Levels.Valid` invariant of the two-way table.
- The routing of appends is checked against `Logger.Receives`, a per-file statement of which files take which calls.
- Option resolution is related to `setLogName`: a `logName` option acts as `useLogName: true` followed by `setLogName` (`Configuration.LogNameOptionIsSetLogName`).

## Model

| member | source | states |
|---|---|---|
| Decimal.NatToString | index.js:122-123 | `toString()` of a non-negative integer is a non-empty digit string with no leading zero, one character exactly for values below ten |
| Decimal.NatToStringRoundTrip | index.js:122-123 | reading the digits of `toString()` back gives the number |
| Decimal.NatToStringLength | index.js:121-123 | one- and two-digit numbers render to one and two characters, and only they |
| Decimal.IntToString | index.js:122 | a negative year renders as '-' followed by the rendering of its magnitude |
| Decimal.PadTwo | index.js:121 | `padStart(2, "0")` returns strings of two or more characters unchanged and left-fills shorter ones with '0' to two characters, keeping the original as suffix |
| Decimal.PadTwoRoundTrip | index.js:121 | a field below 100 pads to exactly two digits whose value is the field |
| Decimal.PadTwoWide | index.js:121 | a field of 100 or more is printed unpadded, at its full width |
| Decimal.Substring | index.js:122 | `substring(start)` is empty past the end and otherwise the suffix from `start` |
| Decimal.YearSuffix | index.js:122 | the year part is what follows the first two characters of the year's rendering, and is empty when the rendering is shorter |
| Decimal.YearSuffixFourDigits | index.js:122 | for a four-digit year the year part is the year modulo 100 padded to two digits |
| Decimal.SuffixDigits | index.js:122 | for a four-digit year the year part is the tens digit then the ones digit |
| Decimal.PadTwoDigits | index.js:121-122 | a number below 100 renders and pads to its tens digit (possibly '0') and its ones digit |
| Ansi.Code | index.js:93-104 | every `Colour` value is an escape sequence ESC '[' parameter 'm' with no other ESC |
| Ansi.CodeInjective | index.js:93-104 | distinct colours have distinct escape strings |
| Ansi.StripCode | index.js:93-104 | removing escape codes deletes a whole colour sequence and nothing after it |
| Ansi.StripPlain | index.js:76-78 | escape-free text passes through stripping unchanged |
| Ansi.StripLevelTag | index.js:133-134 | the GREY-bracketed, coloured level and WHITE message strip to ` [LEVEL] message` |
| Ansi.StripColouredTag | index.js:76-78 | the coloured log-name segment strips to ` [name]` |
| DateFormat.DateTypeName | index.js:107-113 | the `DateType` table maps exactly 0 and 1: TIME exactly for 0 and FULL exactly for 1 |
| DateFormat.Field | index.js:121-123 | every padded field is all digits and at least two characters, exactly two below 100 |
| DateFormat.DateString | index.js:116-130 | FULL gives day part, a space and time; TIME gives the time alone; any other type gives no string (`undefined`) |
| DateFormat.ValidDateFits | index.js:117-126 | a date whose fields lie in the ranges `Date` reports, with a four-digit year, has every printed field below 100, and its plain FULL string parses back to it |
| DateFormat.TimeStringRoundTrip | index.js:123 | the plain time is eight characters `HH:MM:SS` and parses back to the hours, minutes and seconds |
| DateFormat.FullStringRoundTrip | index.js:122-126 | the plain FULL string of a four-digit-year date is 19 characters and parses back to day, 0-based month, year modulo 100 and time |
| DateFormat.TimeStringStrip | index.js:118-123 | the coloured time differs from the plain time only by its GREY/RESET codes |
| DateFormat.DayStringStrip | index.js:118-122 | the coloured day part differs from the plain day part only by its GREY/RESET codes |
| DateFormat.DateStringStrip | index.js:116-130 | for every date type the coloured string exists iff the plain one does, and stripping it gives the plain one |
| DateFormat.StripJoin | index.js:126 | stripping the coloured day part, a space and the coloured time gives the plain day part, a space and the plain time |
| Levels.LevelName | index.js:82-90 | `Level[index]` is defined exactly for registered indices |
| Levels.LevelIndex | index.js:82-90 | `Level[NAME]` is defined exactly for registered names |
| Levels.LevelText | index.js:155-156 | `${Level[level]}` prints the registered name, or "undefined" for an unregistered index |
| Levels.Upper | index.js:214-215 | upper-casing keeps the length and maps each ASCII lower-case letter to upper case |
| Levels.InitialValid | index.js:82-90 | the built-in table INFO/WARN/ERROR at 0/1/2 is a valid two-way table of three levels, and no name in it is an index numeral |
| Levels.InitialNames | index.js:82-90 | none of INFO, WARN and ERROR reads as an index numeral |
| Levels.ValidSizes | index.js:213 | in a valid table the key count is twice the level count, so `keys / 2` is the next index |
| Levels.LookupRoundTrip | index.js:82-90 | in a valid table, name-to-index and index-to-name lookups are inverse |
| Levels.AddLevel | index.js:212-216 | `addLevel` registers the upper-cased name at the next index in both directions, keeps the table valid, and leaves every earlier entry unchanged |
| Levels.ExtendValid | index.js:213-215 | registering a fresh, non-numeral name at index `count` keeps the two directions inverse, names non-numeral, and indices `0 .. count` |
| Levels.ExtendKeepsEntries | index.js:213-215 | the same registration leaves every earlier name and index lookup as it was |
| Levels.AddLevelRoundTrip | index.js:212-216 | after `addLevel` every name maps to an index that maps back to it, and vice versa |
| Levels.AddLevelKeepsBuiltins | index.js:212-216 | `addLevel` does not move INFO, WARN or ERROR |
| Levels.AddCustomLevel | tests.js:11-12 | `addLevel("CUSTOM")` on the built-in table puts CUSTOM at index 3, which printed "undefined" before |
| Configuration.LogPath | index.js:61-62 | a log path is the logs directory, a separator and the file name |
| Configuration.NameOr | index.js:70-71 | the JavaScript or-default takes the option when it is a non-empty string, the fallback otherwise |
| Configuration.Resolve | index.js:53-72 | files default to on and are otherwise the truthiness of `useFiles`; paths exist iff files are used and default to output.log/error.log; names are on iff `logName` is given or `useLogName` is truthy; the name is `logName` verbatim, else the caller file |
| Configuration.TagText | index.js:74-79 | the segment is empty when names are off and ` [name]` uncoloured |
| Configuration.LogNameSegment | index.js:74-79 | `_getLogName(false)` is empty when names are off and ` [name]` otherwise |
| Configuration.TagTextStrip | index.js:74-79 | the coloured segment strips to the plain one and the plain one has no escape codes |
| Configuration.LogNameSegmentStrip | index.js:74-79 | the same for a configuration's own segment |
| Configuration.SetLogName | index.js:219-221 | `setLogName` stores the given name, or the caller file for a missing or empty one, and changes no other setting |
| Configuration.SetLogNameInert | index.js:219-221 | with names off, `setLogName` changes nothing that is printed |
| Configuration.SetLogNameShown | index.js:219-221 | with names on, the plain segment shows the new name or the caller file |
| Configuration.LogNameOptionIsSetLogName | index.js:67-71 | constructing with a non-empty `logName` gives the same configuration as constructing with `useLogName: true` and then calling `setLogName` with that name (index.js:219-221) |
| Configuration.DefaultsUseFiles | index.js:53-63 | no options and `{ useFiles: true }` resolve alike: files on, default paths, no log name |
| Logger.MessageText | index.js:154 | primitives print as they are; objects print as a newline followed by their JSON |
| Logger.Create | index.js:52-72 | a new logger has a consistent configuration and the built-in level table |
| Logger.ConsoleLine | index.js:155 | the console line ends with the message followed by RESET |
| Logger.FileLine | index.js:156 | the file line ends with the message followed by one newline |
| Logger.Targets | index.js:180-204 | no files without `useFiles`; output and error file for `error`; the output file alone otherwise |
| Logger.AppendAll | index.js:194-197 | one append of the same content per path, in order |
| Logger.Emit | index.js:153-157 | a call prints the console line built from the console-time read and appends the file line built from the file-stamp read to each target in order |
| Logger.Info | index.js:180-183 | `info` prints INFO in BLUE and appends the line to the output file only when files are used |
| Logger.Warning | index.js:186-189 | `warning` prints WARN in YELLOW and appends to the output file only when files are used |
| Logger.Error | index.js:192-198 | `error` prints ERROR in RED and appends the same line to the output file and then the error file when files are used |
| Logger.Log | index.js:201-204 | `log` prints any level index in any colour string and appends to the output file only |
| Logger.AddLevelTo | index.js:212-216 | `addLevel` on a logger keeps it consistent and its configuration, prints the new level at the next index, and keeps the old names |
| Logger.SetLogNameOf | index.js:219-221 | `setLogName` on a logger keeps it consistent and its levels, file use and name switch |
| Logger.ConsoleMatchesFile | index.js:116-157 | for any two clock reads and any level colour that is an escape sequence (a table colour or a custom code passed to `log`), the console line with its colour codes removed is its time followed by a tail, and the file line is its day part, a space, its time, the same tail and a newline |
| Logger.ConsoleLineStripped | index.js:133-134 | for any escape-sequence level colour, stripping the console line leaves the time, the plain log-name segment, ` [LEVEL] ` and the message |
| Logger.FileLineShape | index.js:156 | the file line is the plain day part, a space, the time, the log-name segment, ` [LEVEL] `, the message and a newline |
| Logger.ConsoleMatchesFileOneClock | index.js:116-157 | when both clock reads give the same date, for any escape-sequence level colour, the file line is the plain day part, a space, the stripped console line and a newline |
| Logger.FileLinePlain | index.js:156 | with escape-free name, level and message, the file line has no escape codes |
| Logger.ParseTag | index.js:78 | a parsed ` [x]` tag splits its input exactly into ` [`, x, `]` and the rest |
| Logger.ParseTagOf | index.js:78 | a tag whose text has no ']' parses back to that text and the rest |
| Logger.FileTextRoundTrip | index.js:156 | a line of the file shape parses back to its stamp, name, level and message |
| Logger.FileLineRoundTrip | index.js:156 | a file line parses back to the date (0-based month, year modulo 100), the name exactly when names are on, the level name and the message |
| Logger.NoFilesNoAppends | index.js:180-204 | with files off no call appends anything |
| Logger.ErrorReachesBothFiles | index.js:192-198 | with files on `error` appends to the output file then the error file, the same line both times, ending in the message; `info` and `warning` touch the output file only |
| Logger.EmitRoutes | index.js:180-204 | a file receives an append of a call iff files are on and it is the output file, or the error file and the call is `error`; every append carries the file line, and the output file comes first |
| Logger.TargetsRoute | index.js:180-204 | the same routing rule for the target list of a call |
| Logger.NamedLoggerTagsLines | index.js:74-79 | with `logName: "Tests"` every file line, at any level index, carries ` [Tests]` right after the 19-character stamp |
| Logger.SegmentAfterStamp | index.js:156 | the log-name segment of a file line starts right after the 19-character stamp |
| Logger.UnnamedLoggerOmitsTag | index.js:156 | without a log name the file line is the stamp, ` [INFO] `, the message and a newline |
| Logger.CustomLevelIsPrinted | tests.js:11-12 | after `addLevel("CUSTOM")`, `log` at index 3 writes CUSTOM as the level name |

## Left out

- `_getCallerFileName` (index.js:25-49) reads the stack trace. It is the opaque `callerFile` parameter.
- The logs directory `path.join(__dirname, "..", "..", "logs")` is the `logsDir` parameter. Joining is plain concatenation with "/", without `path.join`'s normalisation.
- `_checkFolder`, `fs.existsSync`, `fs.mkdirSync` and the `{ error: ... }` return (index.js:137-164) are file-system I/O and are not modelled. The returned error object is unreachable anyway: `_checkFolder` returns `true` or an exception object, and both are truthy.
- `fs.appendFile` and its failure callback (index.js:167-173) are asynchronous I/O. An append is returned as an `Append(path, content)` record.
- `console.log` is returned as the `console` string of `Logger.Output`.
- `new Date()` is a `DateTime` parameter, one per read. `DateFormat.ValidDate` gives the field ranges `Date` reports. Most lemmas hold without it and ask only for the fields they need, as `DateFormat.ValidDateFits` shows.
- `JSON.stringify(message, null, 4)` is not modelled. A `Composite` message carries the text it would produce.
- The `usingFiles` property of the returned object is the `useFiles` field. The `Level` property is the one object the logger itself changes (index.js:82-90, exported by reference at index.js:208). It is the per-logger `Logger.levels` registry, which `Logger.AddLevelTo` changes. Direct writes by callers to the exported `Level` object, and replacing the `Level` property, are not modelled.
- The `Colour` and `DateType` properties are plain objects exported by reference (index.js:207, 209). The code reads them on every call: index.js:76, 118, 125, 127, 133, 156 and 181-193. The model uses their table values (`Ansi.Code`, `DateFormat.TIME` and `DateFormat.FULL`). Direct writes by callers to the exported `Colour` and `DateType` objects are not modelled.
- `setTimeout` in tests.js is a clock effect and is not modelled.
- Levels.AddLevel: requires a valid table and a name whose upper-case form is neither registered nor a canonical integer numeral. Re-adding a name makes the JavaScript key count odd, which gives a fractional index. A numeral name collides with an index key. Neither case is modelled.
- Decimal.IntToString: renders every integer in plain digits. JavaScript switches to exponent notation from 10^21 (`(1e21).toString()` is "1e+21"). Only `Date` fields reach this function, and `DateFormat.ValidDate` bounds the year to the range a `Date` can hold, far below that.
- Levels.Upper: covers only ASCII `toUpperCase`. Other Unicode case mappings are not modelled.
- Configuration.Options: `outputFile`, `errorFile` and `logName` are typed as optional strings. Their JavaScript truthiness is "present and non-empty". Other value types for these three options are not modelled. `useFiles` and `useLogName` take any `JsValue`, but NaN is not modelled.
- Configuration.SetLogName: models `setLogName(name)` for an optional string only.
- Logger.Info: uses the built-in index 0 where the code reads `Level.INFO` at call time (index.js:181). The same holds for Logger.Warning with 1 and Logger.Error with 2. This is exact within the model, because `Levels.AddLevel` only registers fresh names, and `Levels.AddLevelKeepsBuiltins` proves that INFO, WARN and ERROR stay at 0, 1 and 2. In the program, `addLevel("info")` would move `Level.INFO` to 3, and so would a direct write to the exported object. Neither is modelled (see the Levels.AddLevel line).
- DateFormat.FullStringRoundTrip: holds for four-digit years and fields below 100 only. Longer fields make the stamp wider than 19 characters. That case is covered by `Decimal.PadTwoWide` instead.
- Logger.FileLineRoundTrip: requires no ']' in the log name or level name, because the line format has no escaping.
- An unregistered level index prints as "undefined", following the code at index.js:155-156.
- The 0-based month `getMonth()` is printed as the code does (January is "00"). The model keeps that behaviour.

=== FILE: ansi.dfy ===
/**
 The logger's Colour table: named ANSI "select graphic rendition" sequences, and the
 operation that removes such sequences from a string (what a terminal does not print).
 */
module Ansi {

  const ESC: char := '\U{1B}'

  datatype Colour = Reset | Red | Green | Yellow | Blue | Magenta | Cyan | White | Grey

  /** The SGR parameter of each colour: RESET is 0, the foreground colours 31..37, GREY 90. */
  function Parameter(c: Colour): string {
    match c
    case Reset => "0"
    case Red => "31"
    case Green => "32"
    case Yellow => "33"
    case Blue => "34"
    case Magenta => "35"
    case Cyan => "36"
    case White => "37"
    case Grey => "90"
  }

  /** An SGR escape sequence: ESC, then no 'm' until the final 'm'. */
  predicate IsSequence(s: string) {
    && |s| >= 2
    && s[0] == ESC
    && s[|s| - 1] == 'm'
    && (forall i :: 1 <= i < |s| - 1 ==> s[i] != 'm')
  }

  /** The escape sequence the Colour table holds for `c`: ESC '[' parameter 'm'. */
  function Code(c: Colour): (s: string)
    ensures IsSequence(s)
    ensures |s| >= 4 && s[1] == '['
    ensures forall i :: 1 <= i < |s| ==> s[i] != ESC
  {
    [ESC, '['] + Parameter(c) + "m"
  }

  /** Two different table entries never share an escape sequence. */
  lemma {:induction false} CodeInjective(a: Colour, b: Colour)
    ensures Code(a) == Code(b) <==> a == b
  {
    if Code(a) == Code(b) {
      assert Parameter(a) == Code(a)[2..|Code(a)| - 1];
      assert Parameter(b) == Code(b)[2..|Code(b)| - 1];
    }
  }

  predicate NoEscape(s: string) {
    forall i :: 0 <= i < |s| ==> s[i] != ESC
  }

  /** The position just past the first 'm' at or after `j` (the end of an SGR sequence). */
  function SkipFrom(s: string, j: nat): (k: nat)
    requires j <= |s|
    ensures j <= k <= |s|
    decreases |s| - j
  {
    if j == |s| then |s| else if s[j] == 'm' then j + 1 else SkipFrom(s, j + 1)
  }

  /** `s[i..]` with every escape sequence (ESC up to the next 'm') removed. */
  function StripFrom(s: string, i: nat): (r: string)
    requires i <= |s|
    ensures |r| <= |s| - i
    decreases |s| - i
  {
    if i == |s| then []
    else if s[i] == ESC then StripFrom(s, SkipFrom(s, i + 1))
    else [s[i]] + StripFrom(s, i + 1)
  }

  /** `s` as a terminal shows it: every escape sequence removed. */
  function Strip(s: string): (r: string)
    ensures |r| <= |s|
  {
    StripFrom(s, 0)
  }

  /** Nothing that looks like the start of an escape sequence is left after stripping. */
  lemma {:induction false} StripLeavesNoEscape(s: string, i: nat)
    requires i <= |s|
    ensures NoEscape(StripFrom(s, i))
    decreases |s| - i
  {
    if i < |s| {
      if s[i] == ESC {
        StripLeavesNoEscape(s, SkipFrom(s, i + 1));
      } else {
        StripLeavesNoEscape(s, i + 1);
      }
    }
  }

  lemma {:induction false} SkipFromShift(p: string, t: string, j: nat)
    requires j <= |t|
    ensures SkipFrom(p + t, |p| + j) == |p| + SkipFrom(t, j)
    decreases |t| - j
  {
    if j < |t| {
      assert (p + t)[|p| + j] == t[j];
      SkipFromShift(p, t, j + 1);
    }
  }

  /** Stripping a suffix does not depend on what stands in front of it. */
  lemma {:induction false} StripFromShift(p: string, t: string, i: nat)
    requires i <= |t|
    ensures StripFrom(p + t, |p| + i) == StripFrom(t, i)
    decreases |t| - i
  {
    if i < |t| {
      assert (p + t)[|p| + i] == t[i];
      if t[i] == ESC {
        SkipFromShift(p, t, i + 1);
        StripFromShift(p, t, SkipFrom(t, i + 1));
      } else {
        StripFromShift(p, t, i + 1);
      }
    }
  }

  lemma {:induction false} SkipFromSequence(code: string, t: string, j: nat)
    requires IsSequence(code)
    requires 1 <= j <= |code| - 1
    ensures SkipFrom(code + t, j) == |code|
    decreases |code| - j
  {
    assert (code + t)[j] == code[j];
    if j < |code| - 1 {
      SkipFromSequence(code, t, j + 1);
    }
  }

  /** An escape sequence in front of a string vanishes when escapes are stripped. */
  lemma {:induction false} StripCode(code: string, t: string)
    requires IsSequence(code)
    ensures Strip(code + t) == Strip(t)
  {
    assert (code + t)[0] == ESC;
    SkipFromSequence(code, t, 1);
    StripFromShift(code, t, 0);
  }

  lemma {:induction false} StripPlainFrom(p: string, t: string, i: nat)
    requires NoEscape(p)
    requires i <= |p|
    ensures StripFrom(p + t, i) == p[i..] + Strip(t)
    decreases |p| - i
  {
    if i < |p| {
      assert (p + t)[i] == p[i] && p[i] != ESC;
      assert StripFrom(p + t, i) == [p[i]] + StripFrom(p + t, i + 1);
      StripPlainFrom(p, t, i + 1);
      assert p[i..] == [p[i]] + p[i + 1..];
      assert [p[i]] + (p[i + 1..] + Strip(t)) == ([p[i]] + p[i + 1..]) + Strip(t);
    } else {
      StripFromShift(p, t, 0);
    }
  }

  /** Text without escape characters survives stripping unchanged. */
  lemma StripPlain(p: string, t: string)
    requires NoEscape(p)
    ensures Strip(p + t) == p + Strip(t)
  {
    StripPlainFrom(p, t, 0);
    assert p[0..] == p;
  }

  /** Escape-free text between two escape sequences keeps only the text when stripped. */
  lemma StripWrapped(open: string, body: string, close: string, t: string)
    requires IsSequence(open) && IsSequence(close) && NoEscape(body)
    ensures Strip(open + body + close + t) == body + Strip(t)
  {
    assert open + body + close + t == open + (body + (close + t));
    StripCode(open, body + (close + t));
    StripPlain(body, close + t);
    StripCode(close, t);
  }

  /** The same inside square brackets, the shape of the logger's coloured date. */
  lemma StripBracketed(open: string, body: string, close: string, t: string)
    requires IsSequence(open) && IsSequence(close) && NoEscape(body)
    ensures Strip("[" + (open + body + close + ("]" + t))) == "[" + body + "]" + Strip(t)
  {
    var u := open + body + close + ("]" + t);
    assert Strip("[" + u) == "[" + Strip(u) by {
      StripPlain("[", u);
    }
    assert Strip(u) == body + Strip("]" + t) by {
      StripWrapped(open, body, close, "]" + t);
    }
    assert Strip("]" + t) == "]" + Strip(t) by {
      StripPlain("]", t);
    }
    assert "[" + (body + ("]" + Strip(t))) == "[" + body + "]" + Strip(t);
  }

  /** A name tag ` [name]` with coloured brackets and name keeps only its text when stripped. */
  lemma StripColouredTag(bracket: string, nameColour: string, reset: string, name: string, t: string)
    requires IsSequence(bracket) && IsSequence(nameColour) && IsSequence(reset) && NoEscape(name)
    ensures Strip(" " + bracket + "[" + nameColour + name + bracket + "]" + reset + t)
            == " [" + name + "]" + Strip(t)
  {
    var tail := bracket + "]" + reset + t;
    var inner := bracket + "[" + nameColour + name + tail;
    assert " " + bracket + "[" + nameColour + name + bracket + "]" + reset + t == " " + inner;
    assert Strip(" " + inner) == " " + Strip(inner) by {
      StripPlain(" ", inner);
    }
    assert Strip(inner) == "[" + name + Strip(tail) by {
      assert inner == bracket + ("[" + (nameColour + (name + tail)));
      StripCode(bracket, "[" + (nameColour + (name + tail)));
      StripPlain("[", nameColour + (name + tail));
      StripCode(nameColour, name + tail);
      StripPlain(name, tail);
    }
    assert Strip(tail) == "]" + Strip(t) by {
      assert tail == bracket + ("]" + (reset + t));
      StripCode(bracket, "]" + (reset + t));
      StripPlain("]", reset + t);
      StripCode(reset, t);
    }
    assert " " + ("[" + name + ("]" + Strip(t))) == " [" + name + "]" + Strip(t);
  }

  /** The level tag and message of a console line keep only their text when stripped. */
  lemma StripLevelTag(bracket: string, colour: string, level: string, white: string, message: string, reset: string)
    requires IsSequence(bracket) && IsSequence(colour) && IsSequence(white) && IsSequence(reset)
    requires NoEscape(level) && NoEscape(message)
    ensures Strip(" " + bracket + "[" + colour + level + bracket + "] " + white + message + reset)
            == " [" + level + "] " + message
  {
    var tail := bracket + "] " + white + message + reset;
    var inner := bracket + "[" + colour + level + tail;
    assert " " + bracket + "[" + colour + level + bracket + "] " + white + message + reset == " " + inner;
    assert Strip(" " + inner) == " " + Strip(inner) by {
      StripPlain(" ", inner);
    }
    assert Strip(inner) == "[" + level + Strip(tail) by {
      assert inner == bracket + ("[" + (colour + (level + tail)));
      StripCode(bracket, "[" + (colour + (level + tail)));
      StripPlain("[", colour + (level + tail));
      StripCode(colour, level + tail);
      StripPlain(level, tail);
    }
    assert Strip(tail) == "] " + message by {
      assert tail == bracket + ("] " + (white + (message + reset)));
      StripCode(bracket, "] " + (white + (message + reset)));
      StripPlain("] ", white + (message + reset));
      StripCode(white, message + reset);
      StripPlain(message, reset);
      StripCode(reset, []);
      assert reset + [] == reset;
      assert message + [] == message;
    }
    assert " " + ("[" + level + ("] " + message)) == " [" + level + "] " + message;
  }

  lemma NoEscapeConcat(a: string, b: string)
    requires NoEscape(a) && NoEscape(b)
    ensures NoEscape(a + b)
  {
    forall i | 0 <= i < |a + b|
      ensures (a + b)[i] != ESC
    {
      if i < |a| {
        assert (a + b)[i] == a[i];
      } else {
        assert (a + b)[i] == b[i - |a|];
      }
    }
  }
}

=== FILE: config.dfy ===
/**
 Construction options, their resolution into the logger's configuration, the log-name
 segment `_getLogName` prints, and `setLogName`.

 The caller-file heuristic (a stack-trace read) is an opaque `callerFile` string, and the
 directory `path.join(__dirname, "..", "..", "logs")` is the `logsDir` parameter.
 */
module Configuration {
  import opened Wrappers
  import opened Ansi

  /** The JavaScript values an option may hold, for the purpose of `!!value`. */
  datatype JsValue = Undefined | Null | Bool(b: bool) | Number(n: int) | Text(s: string) | Object

  predicate Truthy(v: JsValue) {
    match v
    case Undefined => false
    case Null => false
    case Bool(b) => b
    case Number(n) => n != 0
    case Text(s) => s != ""
    case Object => true
  }

  /** A string option is "given" when it is present and not the empty string (its truthiness). */
  predicate Given(o: Option<string>) {
    o.Some? && o.value != ""
  }

  datatype Options = Options(
    outputFile: Option<string>,
    errorFile: Option<string>,
    useFiles: JsValue,
    logName: Option<string>,
    useLogName: JsValue)

  /** `{}`: what `options || {}` yields for a missing options argument. */
  const NoOptions: Options := Options(None, None, Undefined, None, Undefined)

  const DefaultOutputFile: string := "output.log"
  const DefaultErrorFile: string := "error.log"

  datatype Config = Config(
    useFiles: bool,
    outputPath: Option<string>,
    errorPath: Option<string>,
    useLogName: bool,
    logName: Option<string>)

  /** A file name inside the logs directory. */
  function LogPath(logsDir: string, fileName: string): (p: string)
    ensures |p| == |logsDir| + 1 + |fileName|
    ensures p[..|logsDir|] == logsDir && p[|logsDir|] == '/' && p[|logsDir| + 1..] == fileName
  {
    logsDir + "/" + fileName
  }

  /** `o || fallback` for a string option. */
  function NameOr(o: Option<string>, fallback: string): (s: string)
    ensures Given(o) ==> s == o.value
    ensures !Given(o) ==> s == fallback
  {
    if Given(o) then o.value else fallback
  }

  /** The configuration a logger constructed with `options` resolves to. */
  function Resolve(options: Option<Options>, logsDir: string, callerFile: string): (c: Config)
    ensures var o := options.GetOr(NoOptions);
      && (c.useFiles <==> o.useFiles == Undefined || Truthy(o.useFiles))
      && (c.outputPath.Some? <==> c.useFiles)
      && (c.errorPath.Some? <==> c.useFiles)
      && (c.useFiles ==> c.outputPath == Some(LogPath(logsDir, NameOr(o.outputFile, DefaultOutputFile))))
      && (c.useFiles ==> c.errorPath == Some(LogPath(logsDir, NameOr(o.errorFile, DefaultErrorFile))))
      && (c.useLogName <==> Given(o.logName) || Truthy(o.useLogName))
      && (c.logName.Some? <==> c.useLogName)
      && (Given(o.logName) ==> c.logName == Some(o.logName.value))
      && (!Given(o.logName) && c.useLogName ==> c.logName == Some(callerFile))
  {
    var o := options.GetOr(NoOptions);
    var useFiles := if o.useFiles == Undefined then true else Truthy(o.useFiles);
    var outputPath := if useFiles then Some(LogPath(logsDir, NameOr(o.outputFile, DefaultOutputFile))) else None;
    var errorPath := if useFiles then Some(LogPath(logsDir, NameOr(o.errorFile, DefaultErrorFile))) else None;
    var useLogName := if Given(o.logName) then true else Truthy(o.useLogName);
    var logName := if useLogName then Some(NameOr(o.logName, callerFile)) else None;
    Config(useFiles, outputPath, errorPath, useLogName, logName)
  }

  /** What `${logName}` prints: the name, or "undefined" when it was never set. */
  function NameText(c: Config): string {
    c.logName.GetOr("undefined")
  }

  /**
   The log-name segment for a given name: nothing when names are off; otherwise ` [name]`,
   in the coloured form with GREY brackets, a GREEN name and a final RESET.
   */
  function TagText(named: bool, name: string, colour: bool): (s: string)
    ensures !named ==> s == ""
    ensures named && !colour ==> s == " [" + name + "]"
  {
    if !named then ""
    else if colour then " " + Code(Grey) + "[" + Code(Green) + name + Code(Grey) + "]" + Code(Reset)
    else " [" + name + "]"
  }

  /** `_getLogName(shouldColour)`. */
  function LogNameSegment(c: Config, colour: bool): (s: string)
    ensures !c.useLogName ==> s == ""
    ensures c.useLogName && !colour ==> s == " [" + NameText(c) + "]"
  {
    TagText(c.useLogName, NameText(c), colour)
  }

  /** `setLogName(name)`: the name, or the caller file when no name is given; nothing else changes. */
  function SetLogName(c: Config, name: Option<string>, callerFile: string): (c': Config)
    ensures c'.logName == Some(NameOr(name, callerFile))
    ensures c'.useFiles == c.useFiles && c'.outputPath == c.outputPath && c'.errorPath == c.errorPath
    ensures c'.useLogName == c.useLogName
  {
    c.(logName := Some(NameOr(name, callerFile)))
  }

  /** Without colour codes in the name, the coloured segment strips to the plain one. */
  lemma {:induction false} TagTextStrip(named: bool, name: string, t: string)
    requires named ==> NoEscape(name)
    ensures Strip(TagText(named, name, true) + t) == TagText(named, name, false) + Strip(t)
    ensures NoEscape(TagText(named, name, false))
  {
    if !named {
      assert TagText(named, name, true) + t == t;
    } else {
      StripColouredTag(Code(Grey), Code(Green), Code(Reset), name, t);
      NoEscapeConcat(" [", name);
      NoEscapeConcat(" [" + name, "]");
    }
  }

  /** The same for a configuration's segment. */
  lemma LogNameSegmentStrip(c: Config, t: string)
    requires c.useLogName ==> NoEscape(NameText(c))
    ensures Strip(LogNameSegment(c, true) + t) == LogNameSegment(c, false) + Strip(t)
    ensures NoEscape(LogNameSegment(c, false))
  {
    TagTextStrip(c.useLogName, NameText(c), t);
  }

  /** With log names off, `setLogName` changes nothing that is printed. */
  lemma SetLogNameInert(c: Config, name: Option<string>, callerFile: string, colour: bool)
    requires !c.useLogName
    ensures LogNameSegment(SetLogName(c, name, callerFile), colour) == ""
  {
  }

  /** With log names on, the plain segment carries the new name verbatim, or the caller file. */
  lemma SetLogNameShown(c: Config, name: Option<string>, callerFile: string)
    requires c.useLogName
    ensures Given(name) ==> LogNameSegment(SetLogName(c, name, callerFile), false) == " [" + name.value + "]"
    ensures !Given(name) ==> LogNameSegment(SetLogName(c, name, callerFile), false) == " [" + callerFile + "]"
  {
  }

  /** `require("./index")()` and `{ useFiles: true }` both write files to output.log and error.log. */
  lemma DefaultsUseFiles(logsDir: string, callerFile: string)
    ensures Resolve(None, logsDir, callerFile).useFiles
    ensures Resolve(None, logsDir, callerFile).outputPath == Some(logsDir + "/output.log")
    ensures Resolve(None, logsDir, callerFile).errorPath == Some(logsDir + "/error.log")
    ensures !Resolve(None, logsDir, callerFile).useLogName
    ensures Resolve(Some(NoOptions.(useFiles := Bool(true))), logsDir, callerFile)
            == Resolve(None, logsDir, callerFile)
  {
    assert LogPath(logsDir, "output.log") == logsDir + "/output.log";
    assert LogPath(logsDir, "error.log") == logsDir + "/error.log";
  }

  /**
   Naming a logger at construction is the same as switching names on and calling
   `setLogName` with that name afterwards; every other option keeps its effect.
   */
  lemma LogNameOptionIsSetLogName(o: Options, name: string, logsDir: string, callerFile: string)
    requires name != ""
    ensures Resolve(Some(o.(logName := Some(name))), logsDir, callerFile)
            == SetLogName(Resolve(Some(o.(logName := None, useLogName := Bool(true))), logsDir, callerFile),
                          Some(name), callerFile)
  {
    var named := Resolve(Some(o.(logName := Some(name))), logsDir, callerFile);
    var switched := Resolve(Some(o.(logName := None, useLogName := Bool(true))), logsDir, callerFile);
    assert Given(Some(name));
    assert named.useLogName && switched.useLogName;
    assert named.logName == Some(name);
  }
}

=== FILE: date_format.dfy ===
/**
 The logger's date/time strings. The clock read is replaced by a DateTime record holding
 what `Date#getDate`, `getMonth`, `getFullYear`, `getHours`, `getMinutes` and `getSeconds`
 return; the month is therefore 0-based and printed as such.
 */
module DateFormat {
  import opened Wrappers
  import opened Decimal
  import opened Ansi

  datatype DateTime = DateTime(day: nat, month: nat, year: int, hours: nat, minutes: nat, seconds: nat)

  /**
   The ranges a JavaScript Date reports for its local-time fields. A Date spans 10^8 days
   either side of 1970, so its year lies between -271821 and 275760.
   */
  predicate ValidDate(d: DateTime) {
    && -271821 <= d.year <= 275760
    && 1 <= d.day <= 31
    && d.month <= 11
    && d.hours <= 23
    && d.minutes <= 59
    && d.seconds <= 59
  }

  /** The DateType table: TIME is 0, FULL is 1. */
  const TIME: int := 0
  const FULL: int := 1

  /** The reverse half of the DateType table, index to name. */
  function DateTypeName(dateType: int): (r: Option<string>)
    ensures r.Some? <==> dateType == TIME || dateType == FULL
    ensures r == Some("TIME") <==> dateType == TIME
    ensures r == Some("FULL") <==> dateType == FULL
  {
    if dateType == TIME then Some("TIME") else if dateType == FULL then Some("FULL") else None
  }

  /** A numeric field rendered in decimal and padded to at least two characters. */
  function Field(n: nat): (r: string)
    ensures |r| >= 2 && AllDigits(r)
    ensures n < 100 ==> |r| == 2
  {
    NatToStringLength(n);
    PadTwo(NatToString(n))
  }

  /** The escape sequences placed around coloured date parts (GREY ... RESET), or nothing. */
  function Open(colour: bool): string {
    if colour then Code(Grey) else ""
  }

  function Close(colour: bool): string {
    if colour then Code(Reset) else ""
  }

  /** `HH:MM:SS` without colour. */
  function TimeBody(d: DateTime): string {
    Field(d.hours) + ":" + Field(d.minutes) + ":" + Field(d.seconds)
  }

  /** `DD/MM/YY` without colour or brackets. */
  function DayBody(d: DateTime): string {
    Field(d.day) + "/" + Field(d.month) + "/" + YearSuffix(d.year)
  }

  /** The time, optionally wrapped in GREY ... RESET. */
  function TimeString(d: DateTime, colour: bool): string {
    Open(colour) + TimeBody(d) + Close(colour)
  }

  /** `[DD/MM/YY]` with the colour codes inside the brackets. */
  function DayString(d: DateTime, colour: bool): string {
    "[" + Open(colour) + DayBody(d) + Close(colour) + "]"
  }

  /** `_getDateString`: the time alone for TIME, day and time for FULL, nothing otherwise. */
  function DateString(d: DateTime, colour: bool, dateType: int): (r: Option<string>)
    ensures r.None? <==> DateTypeName(dateType).None?
    ensures dateType == TIME ==> r == Some(TimeString(d, colour))
    ensures dateType == FULL ==> r == Some(DayString(d, colour) + " " + TimeString(d, colour))
  {
    if dateType == FULL then Some(DayString(d, colour) + " " + TimeString(d, colour))
    else if dateType == TIME then Some(TimeString(d, colour))
    else None
  }

  // Reading the strings back.

  datatype Clock = Clock(hours: nat, minutes: nat, seconds: nat)
  datatype Stamp = Stamp(day: nat, month: nat, shortYear: nat, clock: Clock)

  function TwoDigitValue(a: char, b: char): (v: nat)
    requires IsDigit(a) && IsDigit(b)
    ensures v < 100
  {
    DigitValue(a) * 10 + DigitValue(b)
  }

  /** Parses exactly `DD:DD:DD`. */
  function ParseTime(s: string): (r: Option<Clock>)
    ensures r.Some? ==> |s| == 8 && s[2] == ':' && s[5] == ':'
    ensures r.Some? ==> r.value.hours < 100 && r.value.minutes < 100 && r.value.seconds < 100
  {
    if |s| == 8 && IsDigit(s[0]) && IsDigit(s[1]) && s[2] == ':' && IsDigit(s[3]) && IsDigit(s[4])
       && s[5] == ':' && IsDigit(s[6]) && IsDigit(s[7])
    then Some(Clock(TwoDigitValue(s[0], s[1]), TwoDigitValue(s[3], s[4]), TwoDigitValue(s[6], s[7])))
    else None
  }

  /** Parses exactly `[DD/DD/DD] DD:DD:DD`. */
  function ParseFull(s: string): (r: Option<Stamp>)
    ensures r.Some? ==> |s| == 19 && s[0] == '[' && s[9] == ']' && s[10] == ' '
  {
    if |s| == 19 && s[0] == '[' && IsDigit(s[1]) && IsDigit(s[2]) && s[3] == '/' && IsDigit(s[4])
       && IsDigit(s[5]) && s[6] == '/' && IsDigit(s[7]) && IsDigit(s[8]) && s[9] == ']' && s[10] == ' '
       && ParseTime(s[11..]).Some?
    then Some(Stamp(TwoDigitValue(s[1], s[2]), TwoDigitValue(s[4], s[5]), TwoDigitValue(s[7], s[8]),
                    ParseTime(s[11..]).value))
    else None
  }

  lemma {:induction false} FieldDigits(n: nat)
    requires n < 100
    ensures |Field(n)| == 2 && IsDigit(Field(n)[0]) && IsDigit(Field(n)[1])
    ensures TwoDigitValue(Field(n)[0], Field(n)[1]) == n
  {
    var f := Field(n);
    assert |f| == 2 && AllDigits(f) && DigitsValue(f) == n by {
      PadTwoRoundTrip(n);
    }
    TwoDigitsValue(f);
  }

  /** A two-character digit string has the value TwoDigitValue reads from it. */
  lemma TwoDigitsValue(f: string)
    requires |f| == 2 && AllDigits(f)
    ensures DigitsValue(f) == TwoDigitValue(f[0], f[1])
  {
    var head := f[..1];
    assert head[..0] == [];
    assert DigitsValue(head) == DigitValue(f[0]);
    assert DigitsValue(f) == DigitsValue(head) * 10 + DigitValue(f[1]);
  }

  predicate TimeFieldsFit(d: DateTime) {
    d.hours < 100 && d.minutes < 100 && d.seconds < 100
  }

  /**
   The uncoloured time is exactly eight characters `DD:DD:DD`, and reading it back gives
   the hours, minutes and seconds it was built from.
   */
  lemma {:induction false} TimeStringRoundTrip(d: DateTime)
    requires TimeFieldsFit(d)
    ensures |TimeString(d, false)| == 8
    ensures AllDigits(TimeString(d, false)[0..2]) && AllDigits(TimeString(d, false)[3..5])
    ensures AllDigits(TimeString(d, false)[6..8])
    ensures ParseTime(TimeString(d, false)) == Some(Clock(d.hours, d.minutes, d.seconds))
  {
    FieldDigits(d.hours);
    FieldDigits(d.minutes);
    FieldDigits(d.seconds);
    var s := TimeString(d, false);
    assert s == Field(d.hours) + ":" + Field(d.minutes) + ":" + Field(d.seconds);
  }

  predicate DayFieldsFit(d: DateTime) {
    d.day < 100 && d.month < 100 && 1000 <= d.year <= 9999 && TimeFieldsFit(d)
  }

  /** Every date a JavaScript clock reports in the years 1000 to 9999 meets the round-trip bounds. */
  lemma ValidDateFits(d: DateTime)
    requires ValidDate(d) && 1000 <= d.year <= 9999
    ensures DayFieldsFit(d) && TimeFieldsFit(d)
    ensures ParseFull(DateString(d, false, FULL).value)
            == Some(Stamp(d.day, d.month, d.year % 100, Clock(d.hours, d.minutes, d.seconds)))
  {
    assert DateString(d, false, FULL).value == DayString(d, false) + " " + TimeString(d, false);
    FullStringRoundTrip(d);
  }

  /** The uncoloured day part is the day body in brackets. */
  lemma PlainDayString(d: DateTime)
    ensures DayString(d, false) == "[" + DayBody(d) + "]"
  {
    assert Open(false) == "" && Close(false) == "";
  }

  /** A four-digit year prints as the padded field of the year modulo one hundred. */
  lemma YearField(year: int)
    requires 1000 <= year <= 9999
    ensures YearSuffix(year) == Field(year % 100)
  {
    YearSuffixFourDigits(year);
  }

  /** With a four-digit year the uncoloured day part is three padded fields in brackets. */
  lemma DayStringShape(d: DateTime)
    requires 1000 <= d.year <= 9999
    ensures DayString(d, false) == "[" + (Field(d.day) + "/" + Field(d.month) + "/" + Field(d.year % 100)) + "]"
  {
    PlainDayString(d);
    YearField(d.year);
  }

  /** Any three two-digit fields in brackets, a space and a parsable time read back as a stamp. */
  lemma ParseFullOf(a: string, b: string, c: string, t: string)
    requires |a| == 2 && IsDigit(a[0]) && IsDigit(a[1])
    requires |b| == 2 && IsDigit(b[0]) && IsDigit(b[1])
    requires |c| == 2 && IsDigit(c[0]) && IsDigit(c[1])
    requires ParseTime(t).Some?
    ensures ParseFull(("[" + (a + "/" + b + "/" + c) + "]") + " " + t)
            == Some(Stamp(TwoDigitValue(a[0], a[1]), TwoDigitValue(b[0], b[1]), TwoDigitValue(c[0], c[1]),
                          ParseTime(t).value))
  {
    var s := ("[" + (a + "/" + b + "/" + c) + "]") + " " + t;
    assert s[1] == a[0] && s[2] == a[1] && s[4] == b[0] && s[5] == b[1] && s[7] == c[0] && s[8] == c[1];
    assert s[11..] == t;
  }

  /**
   The uncoloured FULL string of a date with a four-digit year is exactly nineteen
   characters `[DD/MM/YY] HH:MM:SS`; reading it back gives the day, the 0-based month,
   the year modulo one hundred and the time.
   */
  lemma {:induction false} FullStringRoundTrip(d: DateTime)
    requires DayFieldsFit(d)
    ensures |DayString(d, false) + " " + TimeString(d, false)| == 19
    ensures ParseFull(DayString(d, false) + " " + TimeString(d, false))
            == Some(Stamp(d.day, d.month, d.year % 100, Clock(d.hours, d.minutes, d.seconds)))
  {
    var t := TimeString(d, false);
    DayStringShape(d);
    FieldDigits(d.day);
    FieldDigits(d.month);
    FieldDigits(d.year % 100);
    TimeStringRoundTrip(d);
    ParseFullOf(Field(d.day), Field(d.month), Field(d.year % 100), t);
  }

  lemma BodiesNoEscape(d: DateTime)
    ensures NoEscape(TimeBody(d)) && NoEscape(DayBody(d))
  {
    var y := IntToString(d.year);
    assert NoEscape(y) by {
      if d.year < 0 {
        assert y == "-" + NatToString(-d.year);
      }
    }
  }

  /** The GREY/RESET codes are the only difference between a coloured and a plain time. */
  lemma {:induction false} TimeStringStrip(d: DateTime, t: string)
    ensures Strip(TimeString(d, true) + t) == TimeString(d, false) + Strip(t)
    ensures NoEscape(TimeString(d, false))
  {
    BodiesNoEscape(d);
    assert TimeString(d, false) == TimeBody(d);
    StripWrapped(Code(Grey), TimeBody(d), Code(Reset), t);
  }

  /** The same holds of the bracketed day part. */
  lemma {:induction false} DayStringStrip(d: DateTime, t: string)
    ensures Strip(DayString(d, true) + t) == DayString(d, false) + Strip(t)
    ensures NoEscape(DayString(d, false))
  {
    var body := DayBody(d);
    assert NoEscape(body) by {
      BodiesNoEscape(d);
    }
    assert DayString(d, true) == "[" + Code(Grey) + body + Code(Reset) + "]";
    assert Strip(DayString(d, true) + t) == "[" + body + "]" + Strip(t) by {
      RegroupBracketed(Code(Grey), body, Code(Reset), t);
      StripBracketed(Code(Grey), body, Code(Reset), t);
    }
    assert DayString(d, false) == "[" + body + "]" by {
      assert Open(false) == "" && Close(false) == "";
    }
  }

  /** Re-association of a bracketed, wrapped body followed by a tail. */
  lemma RegroupBracketed(open: string, body: string, close: string, t: string)
    ensures "[" + open + body + close + "]" + t == "[" + (open + body + close + ("]" + t))
  {
  }

  /** For every date type, stripping the colour codes of the coloured string gives the plain one. */
  lemma {:induction false} DateStringStrip(d: DateTime, dateType: int)
    ensures DateString(d, true, dateType).Some? <==> DateString(d, false, dateType).Some?
    ensures DateString(d, true, dateType).Some? ==>
            Strip(DateString(d, true, dateType).value) == DateString(d, false, dateType).value
    ensures DateString(d, false, dateType).Some? ==> NoEscape(DateString(d, false, dateType).value)
  {
    var t := TimeString(d, true);
    assert Strip(t) == TimeString(d, false) && NoEscape(TimeString(d, false)) by {
      TimeStringStrip(d, []);
      assert t + [] == t;
    }
    if dateType == FULL {
      assert Strip(DayString(d, true) + (" " + t)) == DayString(d, false) + Strip(" " + t)
        && NoEscape(DayString(d, false)) by {
        DayStringStrip(d, " " + t);
      }
      StripJoin(DayString(d, true), DayString(d, false), t, TimeString(d, false));
    }
  }

  /** Joining a stripped day part and a stripped time with a space, for abstract strings. */
  lemma StripJoin(dayC: string, dayP: string, timeC: string, timeP: string)
    requires Strip(dayC + (" " + timeC)) == dayP + Strip(" " + timeC)
    requires Strip(timeC) == timeP && NoEscape(dayP) && NoEscape(timeP)
    ensures Strip(dayC + " " + timeC) == dayP + " " + timeP
    ensures NoEscape(dayP + " " + timeP)
  {
    StripPlain(" ", timeC);
    assert dayC + " " + timeC == dayC + (" " + timeC);
    assert dayP + (" " + timeP) == dayP + " " + timeP;
    NoEscapeConcat(dayP, " ");
    NoEscapeConcat(dayP + " ", timeP);
  }
}

=== FILE: decimal.dfy ===
/**
 Decimal rendering of integers as JavaScript's `Number.prototype.toString()` produces it
 for integral values, together with the two string helpers the date formatter uses:
 `padStart(2, "0")` and `substring(start)`.
 */
module Decimal {

  predicate IsDigit(c: char) {
    '0' <= c <= '9'
  }

  predicate AllDigits(s: string) {
    forall i :: 0 <= i < |s| ==> IsDigit(s[i])
  }

  function Digit(d: nat): (c: char)
    requires d < 10
    ensures IsDigit(c)
  {
    "0123456789"[d]
  }

  function DigitValue(c: char): (d: nat)
    requires IsDigit(c)
    ensures d < 10
  {
    (c as int) - ('0' as int)
  }

  lemma DigitRoundTrip(d: nat)
    requires d < 10
    ensures DigitValue(Digit(d)) == d
  {
  }

  /** The value of a string of decimal digits (the inverse of NatToString). */
  function DigitsValue(s: string): nat
    requires AllDigits(s)
  {
    if |s| == 0 then 0 else DigitsValue(s[..|s| - 1]) * 10 + DigitValue(s[|s| - 1])
  }

  /**
   The shortest decimal representation of `n`: digits only, never empty, and without a
   leading zero unless `n` is zero itself.
   */
  function NatToString(n: nat): (s: string)
    ensures |s| >= 1 && AllDigits(s)
    ensures |s| > 1 ==> s[0] != '0'
    ensures n < 10 <==> |s| == 1
    decreases n
  {
    if n < 10 then [Digit(n)] else NatToString(n / 10) + [Digit(n % 10)]
  }

  /** Reading back the digits NatToString writes gives the number it was given. */
  lemma {:induction false} NatToStringRoundTrip(n: nat)
    ensures DigitsValue(NatToString(n)) == n
    decreases n
  {
    var s := NatToString(n);
    if n < 10 {
      DigitRoundTrip(n);
    } else {
      NatToStringRoundTrip(n / 10);
      assert s[..|s| - 1] == NatToString(n / 10);
      DigitRoundTrip(n % 10);
    }
  }

  /** One- and two-digit numbers: the length of the rendering tells which range `n` is in. */
  lemma {:induction false} NatToStringLength(n: nat)
    ensures n < 10 ==> |NatToString(n)| == 1
    ensures 10 <= n < 100 <==> |NatToString(n)| == 2
  {
    if n >= 10 {
      assert |NatToString(n)| == |NatToString(n / 10)| + 1;
      assert n < 100 <==> n / 10 < 10;
    }
  }

  /** `Number.prototype.toString()` of an integral number below 10^21 in magnitude: a minus sign for negatives. */
  function IntToString(i: int): (s: string)
    ensures i >= 0 ==> s == NatToString(i)
    ensures i < 0 ==> |s| >= 2 && s[0] == '-' && s[1..] == NatToString(-i)
  {
    if i < 0 then "-" + NatToString(-i) else NatToString(i)
  }

  /**
   `s.padStart(2, "0")`: a string of two or more characters is returned unchanged,
   a shorter one is filled with '0' on the left up to two characters.
   */
  function PadTwo(s: string): (r: string)
    ensures |s| >= 2 ==> r == s
    ensures |s| < 2 ==> |r| == 2 && r[2 - |s|..] == s
    ensures forall i :: 0 <= i < 2 - |s| ==> r[i] == '0'
  {
    if |s| >= 2 then s else if |s| == 1 then "0" + s else "00"
  }

  /** `s.substring(start)` for a non-negative start: empty once start passes the end. */
  function Substring(s: string, start: nat): (r: string)
    ensures start >= |s| ==> r == []
    ensures start < |s| ==> |r| == |s| - start && s == s[..start] + r
  {
    if start >= |s| then [] else s[start..]
  }

  /**
   A field value below one hundred pads to exactly two digits whose value is the field:
   padding followed by reading back is the identity.
   */
  lemma {:induction false} PadTwoRoundTrip(n: nat)
    requires n < 100
    ensures |PadTwo(NatToString(n))| == 2
    ensures AllDigits(PadTwo(NatToString(n)))
    ensures DigitsValue(PadTwo(NatToString(n))) == n
  {
    NatToStringLength(n);
    NatToStringRoundTrip(n);
    var s := NatToString(n);
    var p := PadTwo(s);
    if n < 10 {
      assert p == ['0', s[0]];
      assert p[..1] == ['0'];
      assert s[..0] == [];
    }
  }

  /** A value of one hundred or more is left as its own digits: padding never truncates. */
  lemma {:induction false} PadTwoWide(n: nat)
    requires n >= 100
    ensures PadTwo(NatToString(n)) == NatToString(n)
    ensures |PadTwo(NatToString(n))| > 2
  {
    NatToStringLength(n);
  }

  /** The two-digit year suffix: the rendering of a four-digit year without its first two characters. */
  function YearSuffix(year: int): (r: string)
    ensures |IntToString(year)| >= 2 ==> IntToString(year) == IntToString(year)[..2] + r
    ensures |IntToString(year)| < 2 ==> r == []
  {
    Substring(IntToString(year), 2)
  }

  /** The last step of NatToString: the rendering of `n / 10` followed by the last digit. */
  lemma LastDigit(n: nat)
    requires n >= 10
    ensures NatToString(n) == NatToString(n / 10) + [Digit(n % 10)]
  {
  }

  /** The decimal digits of a four-digit number taken apart by division. */
  lemma FourDigitArithmetic(year: int)
    requires 1000 <= year <= 9999
    ensures 10 <= year / 100 < 100 && year / 10 >= 100
    ensures (year / 10) / 10 == year / 100
    ensures (year / 10) % 10 == (year % 100) / 10
    ensures year % 10 == (year % 100) % 10
  {
    var lo := year % 100;
    assert year == 100 * (year / 100) + lo;
    assert lo == 10 * (lo / 10) + lo % 10;
    assert year == 10 * (10 * (year / 100) + lo / 10) + lo % 10;
  }

  /** For four-digit years the suffix is the year modulo one hundred, zero-padded to two digits. */
  lemma {:induction false} YearSuffixFourDigits(year: int)
    requires 1000 <= year <= 9999
    ensures YearSuffix(year) == PadTwo(NatToString(year % 100))
  {
    SuffixDigits(year);
    PadTwoDigits(year % 100);
  }

  /** The last two characters of a four-digit year are its tens and ones digits. */
  lemma {:induction false} SuffixDigits(year: int)
    requires 1000 <= year <= 9999
    ensures YearSuffix(year) == [Digit((year % 100) / 10), Digit((year % 100) % 10)]
  {
    var lo: nat := year % 100;
    var tens: nat := lo / 10;
    var ones: nat := lo % 10;
    FourDigitArithmetic(year);
    var q: nat := year / 10;
    var hi: nat := year / 100;
    assert NatToString(q) == NatToString(hi) + [Digit(tens)] by {
      LastDigit(q);
    }
    assert IntToString(year) == NatToString(hi) + [Digit(tens), Digit(ones)] by {
      LastDigit(year);
    }
    NatToStringLength(hi);
  }

  /** Below one hundred, PadTwo renders the tens digit (possibly zero) and the ones digit. */
  lemma {:induction false} PadTwoDigits(n: nat)
    requires n < 100
    ensures PadTwo(NatToString(n)) == [Digit(n / 10), Digit(n % 10)]
  {
    if n >= 10 {
      LastDigit(n);
      assert NatToString(n / 10) == [Digit(n / 10)];
    } else {
      assert NatToString(n) == [Digit(n % 10)];
    }
  }
}

=== FILE: levels.dfy ===
/**
 The Level table: a bidirectional registry between numeric level indices and upper-case
 level names, seeded with INFO, WARN and ERROR and extended by `addLevel`. The JavaScript
 object holds both directions as keys of one object; here they are two maps.
 */
module Levels {
  import opened Wrappers
  import opened Decimal

  datatype Registry = Registry(byIndex: map<int, string>, byName: map<string, int>)

  /**
   The registry invariant: indices are exactly 0 .. count-1, and the two directions
   are inverse to each other.
   */
  ghost predicate Valid(r: Registry) {
    && (forall i :: i in r.byIndex <==> 0 <= i < |r.byIndex|)
    && (forall i {:trigger i in r.byIndex} ::
          i in r.byIndex ==> r.byIndex[i] in r.byName && r.byName[r.byIndex[i]] == i)
    && (forall n {:trigger n in r.byName} ::
          n in r.byName ==> r.byName[n] in r.byIndex && r.byIndex[r.byName[n]] == n)
    && (forall n {:trigger n in r.byName} :: n in r.byName ==> !IsIndexKey(n))
  }

  /** Number of registered levels. */
  function Count(r: Registry): nat {
    |r.byIndex|
  }

  /** `Object.keys(Level).length`: every level occupies two keys of the JavaScript object. */
  function KeyCount(r: Registry): nat {
    |r.byIndex| + |r.byName|
  }

  const Initial: Registry :=
    Registry(map[0 := "INFO", 1 := "WARN", 2 := "ERROR"], map["INFO" := 0, "WARN" := 1, "ERROR" := 2])

  const INFO: int := 0
  const WARN: int := 1
  const ERROR: int := 2

  /** `Level[index]`. */
  function LevelName(r: Registry, level: int): (n: Option<string>)
    ensures n.Some? <==> level in r.byIndex
  {
    if level in r.byIndex then Some(r.byIndex[level]) else None
  }

  /** `Level[NAME]`. */
  function LevelIndex(r: Registry, name: string): (i: Option<int>)
    ensures i.Some? <==> name in r.byName
  {
    if name in r.byName then Some(r.byName[name]) else None
  }

  /** What `${Level[level]}` prints: the name, or "undefined" for an unregistered index. */
  function LevelText(r: Registry, level: int): (s: string)
    ensures level in r.byIndex ==> s == r.byIndex[level]
    ensures level !in r.byIndex ==> s == "undefined"
  {
    LevelName(r, level).GetOr("undefined")
  }

  /** `String.prototype.toUpperCase` restricted to the ASCII letters. */
  function UpperChar(c: char): (u: char)
    ensures 'a' <= c <= 'z' ==> u as int == c as int - 32
    ensures !('a' <= c <= 'z') ==> u == c
  {
    if 'a' <= c <= 'z' then (c as int - 32) as char else c
  }

  function Upper(s: string): (u: string)
    ensures |u| == |s|
    ensures forall i :: 0 <= i < |s| ==> u[i] == UpperChar(s[i])
  {
    seq(|s|, i requires 0 <= i < |s| => UpperChar(s[i]))
  }

  /**
   A name that JavaScript would store under the same property key as a level index
   (a canonical non-negative integer numeral such as "3").
   */
  predicate IsIndexKey(s: string) {
    |s| >= 1 && AllDigits(s) && (|s| == 1 || s[0] != '0')
  }

  lemma InitialValid()
    ensures Valid(Initial)
    ensures Count(Initial) == 3
  {
    InitialIndices();
    InitialInverse();
    InitialNames();
  }

  lemma InitialIndices()
    ensures |Initial.byIndex| == 3
    ensures forall i :: i in Initial.byIndex <==> 0 <= i < |Initial.byIndex|
  {
    var r := Initial;
    assert |r.byIndex| == 3;
    forall i
      ensures i in r.byIndex <==> 0 <= i < 3
    {
      assert i in r.byIndex <==> i == 0 || i == 1 || i == 2;
    }
  }

  lemma InitialInverse()
    ensures forall i {:trigger i in Initial.byIndex} :: i in Initial.byIndex ==>
              Initial.byIndex[i] in Initial.byName && Initial.byName[Initial.byIndex[i]] == i
    ensures forall n {:trigger n in Initial.byName} :: n in Initial.byName ==>
              Initial.byName[n] in Initial.byIndex && Initial.byIndex[Initial.byName[n]] == n
  {
    var r := Initial;
    forall i | i in r.byIndex
      ensures r.byIndex[i] in r.byName && r.byName[r.byIndex[i]] == i
    {
      assert i == 0 || i == 1 || i == 2;
    }
    forall n | n in r.byName
      ensures r.byName[n] in r.byIndex && r.byIndex[r.byName[n]] == n
    {
      assert n == "INFO" || n == "WARN" || n == "ERROR";
    }
  }

  /** None of the built-in names reads as an index numeral. */
  lemma InitialNames()
    ensures forall n {:trigger n in Initial.byName} :: n in Initial.byName ==> !IsIndexKey(n)
  {
    forall n | n in Initial.byName
      ensures !IsIndexKey(n)
    {
      assert n == "INFO" || n == "WARN" || n == "ERROR";
      assert !IsDigit(n[0]);
    }
  }

  /** The two directions of a valid registry have the same number of entries. */
  lemma {:induction false} ValidSizes(r: Registry)
    requires Valid(r)
    ensures |r.byName| == |r.byIndex|
    ensures KeyCount(r) == 2 * Count(r)
  {
    var n := |r.byIndex|;
    var names := set i | 0 <= i < n :: r.byIndex[i];
    forall x | x in r.byName
      ensures x in names
    {
      var i := r.byName[x];
      assert 0 <= i < n && r.byIndex[i] == x;
    }
    forall i | 0 <= i < n
      ensures i in r.byIndex && r.byIndex[i] in r.byName && r.byName[r.byIndex[i]] == i
    {
      assert i in r.byIndex;
    }
    assert names == r.byName.Keys;
    ImageSize(r.byIndex, n);
  }

  /** An injective map sends the indices 0 .. n-1 onto n distinct values. */
  lemma {:induction false} ImageSize(m: map<int, string>, n: nat)
    requires forall i :: 0 <= i < n ==> i in m
    requires forall i, j :: 0 <= i < n && 0 <= j < n && m[i] == m[j] ==> i == j
    ensures |set i | 0 <= i < n :: m[i]| == n
  {
    if n > 0 {
      ImageSize(m, n - 1);
      var image := set i | 0 <= i < n :: m[i];
      var restImage := set i | 0 <= i < n - 1 :: m[i];
      assert image == restImage + {m[n - 1]};
      assert m[n - 1] !in restImage;
    }
  }

  /** In a valid registry, looking a name up and looking an index up are inverse. */
  lemma LookupRoundTrip(r: Registry, name: string, level: int)
    requires Valid(r)
    ensures LevelIndex(r, name) == Some(level) <==> LevelName(r, level) == Some(name)
  {
  }

  /**
   `addLevel(name)`: the upper-cased name is registered at index `keys / 2`, which in a
   valid registry is the number of levels already present, in both directions.
   */
  function AddLevel(r: Registry, name: string): (r': Registry)
    requires Valid(r)
    requires Upper(name) !in r.byName
    requires !IsIndexKey(Upper(name))
    ensures Valid(r')
    ensures Count(r') == Count(r) + 1
    ensures LevelIndex(r', Upper(name)) == Some(Count(r))
    ensures LevelName(r', Count(r)) == Some(Upper(name))
    ensures forall i :: i in r.byIndex ==> LevelName(r', i) == LevelName(r, i)
    ensures forall n :: n in r.byName ==> LevelIndex(r', n) == LevelIndex(r, n)
    ensures r'.byIndex.Keys == r.byIndex.Keys + {Count(r)}
    ensures r'.byName.Keys == r.byName.Keys + {Upper(name)}
  {
    var index := KeyCount(r) / 2;
    assert index == Count(r) by {
      ValidSizes(r);
    }
    var upper := Upper(name);
    ExtendValid(r, upper);
    assert index !in r.byIndex;
    ExtendKeepsEntries(r, upper);
    ExtendKeys(r, upper);
    Registry(r.byIndex[index := upper], r.byName[upper := index])
  }

  /** Registering a fresh, non-numeral name at index `Count(r)` keeps a registry valid. */
  lemma ExtendValid(r: Registry, upper: string)
    requires Valid(r)
    requires upper !in r.byName && !IsIndexKey(upper)
    ensures var r' := Registry(r.byIndex[Count(r) := upper], r.byName[upper := Count(r)]);
      && Valid(r')
      && Count(r') == Count(r) + 1
      && LevelIndex(r', upper) == Some(Count(r))
      && LevelName(r', Count(r)) == Some(upper)
  {
    var n := Count(r);
    var r' := Registry(r.byIndex[n := upper], r.byName[upper := n]);
    assert n !in r.byIndex;
    assert |r'.byIndex| == n + 1;
    ExtendStaysValid(r, upper);
  }

  /** The same registration leaves every earlier entry where it was. */
  lemma ExtendKeepsEntries(r: Registry, upper: string)
    requires Count(r) !in r.byIndex && upper !in r.byName
    ensures var r' := Registry(r.byIndex[Count(r) := upper], r.byName[upper := Count(r)]);
      && (forall i :: i in r.byIndex ==> LevelName(r', i) == LevelName(r, i))
      && (forall n :: n in r.byName ==> LevelIndex(r', n) == LevelIndex(r, n))
  {
    var k := Count(r);
    var byIndex := r.byIndex[k := upper];
    var byName := r.byName[upper := k];
    forall i | i in r.byIndex
      ensures i in byIndex && byIndex[i] == r.byIndex[i]
    {
      assert i != k;
    }
    forall n | n in r.byName
      ensures n in byName && byName[n] == r.byName[n]
    {
      assert n != upper;
    }
  }

  /** ... and adds exactly one key in each direction. */
  lemma ExtendKeys(r: Registry, upper: string)
    ensures r.byIndex[Count(r) := upper].Keys == r.byIndex.Keys + {Count(r)}
    ensures r.byName[upper := Count(r)].Keys == r.byName.Keys + {upper}
  {
  }

  lemma ExtendStaysValid(r: Registry, upper: string)
    requires Valid(r)
    requires upper !in r.byName && !IsIndexKey(upper)
    ensures Valid(Registry(r.byIndex[Count(r) := upper], r.byName[upper := Count(r)]))
  {
    var n := Count(r);
    var r' := Registry(r.byIndex[n := upper], r.byName[upper := n]);
    assert n !in r.byIndex;
    assert |r'.byIndex| == n + 1;
    assert forall i :: i in r'.byIndex <==> 0 <= i < |r'.byIndex|;
    forall i | i in r'.byIndex
      ensures r'.byIndex[i] in r'.byName && r'.byName[r'.byIndex[i]] == i
    {
      if i != n {
        assert r'.byIndex[i] == r.byIndex[i] != upper;
      }
    }
    forall m | m in r'.byName
      ensures r'.byName[m] in r'.byIndex && r'.byIndex[r'.byName[m]] == m && !IsIndexKey(m)
    {
      if m != upper {
        assert r'.byName[m] == r.byName[m] != n;
      }
    }
  }

  /** `addLevel` keeps `Level[Level[name]] == name` for every registered name, old and new. */
  lemma AddLevelRoundTrip(r: Registry, name: string)
    requires Valid(r)
    requires Upper(name) !in r.byName
    requires !IsIndexKey(Upper(name))
    ensures forall n :: n in AddLevel(r, name).byName ==>
              LevelName(AddLevel(r, name), AddLevel(r, name).byName[n]) == Some(n)
    ensures forall i :: i in AddLevel(r, name).byIndex ==>
              LevelIndex(AddLevel(r, name), AddLevel(r, name).byIndex[i]) == Some(i)
  {
  }

  /** The built-in levels keep their indices after any `addLevel` of a fresh name. */
  lemma AddLevelKeepsBuiltins(r: Registry, name: string)
    requires Valid(r)
    requires LevelIndex(r, "INFO") == Some(INFO) && LevelIndex(r, "WARN") == Some(WARN)
    requires LevelIndex(r, "ERROR") == Some(ERROR)
    requires Upper(name) !in r.byName
    requires !IsIndexKey(Upper(name))
    ensures LevelIndex(AddLevel(r, name), "INFO") == Some(INFO)
    ensures LevelIndex(AddLevel(r, name), "WARN") == Some(WARN)
    ensures LevelIndex(AddLevel(r, name), "ERROR") == Some(ERROR)
    ensures LevelName(AddLevel(r, name), INFO) == Some("INFO")
  {
  }

  /** "custom" and "CUSTOM" both upper-case to "CUSTOM". */
  lemma UpperCustom()
    ensures Upper("custom") == "CUSTOM" && Upper("CUSTOM") == "CUSTOM"
  {
    var u := Upper("custom");
    assert u[0] == 'C' && u[1] == 'U' && u[2] == 'S' && u[3] == 'T' && u[4] == 'O' && u[5] == 'M';
    var v := Upper("CUSTOM");
    assert v[0] == 'C' && v[1] == 'U' && v[2] == 'S' && v[3] == 'T' && v[4] == 'O' && v[5] == 'M';
  }

  /** The custom level of the package's own test script: "CUSTOM" lands at index 3. */
  lemma AddCustomLevel()
    ensures Upper("custom") == "CUSTOM" && Upper("CUSTOM") == "CUSTOM"
    ensures Valid(Initial) && "CUSTOM" !in Initial.byName && !IsIndexKey("CUSTOM")
    ensures LevelIndex(AddLevel(Initial, "CUSTOM"), "CUSTOM") == Some(3)
    ensures LevelText(AddLevel(Initial, "CUSTOM"), 3) == "CUSTOM"
    ensures LevelText(Initial, 3) == "undefined"
  {
    InitialValid();
    UpperCustom();
    assert !IsIndexKey("CUSTOM") by {
      assert !IsDigit("CUSTOM"[0]);
    }
    assert "CUSTOM" !in Initial.byName;
    var r := AddLevel(Initial, "CUSTOM");
    assert LevelIndex(r, "CUSTOM") == Some(3);
    assert LevelName(r, 3) == Some("CUSTOM");
  }
}

=== FILE: logger.dfy ===
/**
 The logger interface: the console line and the file line `_logMessage` builds, and which
 log files `info`, `warning`, `error` and `log` append that file line to. Console output
 and file appends are returned as values instead of being performed.
 */
module Logger {
  import opened Wrappers
  import opened Ansi
  import opened DateFormat
  import opened Levels
  import opened Configuration

  /**
   A message as the caller passes it: a primitive (already in its string form) or an
   object, carried as the text `JSON.stringify(message, null, 4)` produces for it.
   */
  datatype Message = Primitive(text: string) | Composite(json: string)

  /** The text printed for a message: objects start on a new line. */
  function MessageText(m: Message): (s: string)
    ensures m.Primitive? ==> s == m.text
    ensures m.Composite? ==> |s| == |m.json| + 1 && s[0] == '\n' && s[1..] == m.json
  {
    match m
    case Primitive(text) => text
    case Composite(json) => "\n" + json
  }

  datatype Logger = Logger(config: Config, levels: Registry)

  /** What holds of every configuration `Resolve` and `SetLogName` produce. */
  predicate Consistent(c: Config) {
    && (c.outputPath.Some? <==> c.useFiles)
    && (c.errorPath.Some? <==> c.useFiles)
    && (c.useLogName ==> c.logName.Some?)
  }

  ghost predicate ValidLogger(lg: Logger) {
    Consistent(lg.config) && Valid(lg.levels)
  }

  /** The logger the module's exported constructor returns. */
  function Create(options: Option<Options>, logsDir: string, callerFile: string): (lg: Logger)
    ensures ValidLogger(lg)
    ensures lg.levels == Initial
    ensures lg.config == Resolve(options, logsDir, callerFile)
  {
    InitialValid();
    Logger(Resolve(options, logsDir, callerFile), Initial)
  }

  /**
   The part of a console line after the log-name segment: the level name in `colour`
   between GREY brackets, then the message in WHITE, then RESET.
   */
  function LevelPart(colour: string, level: string, message: string): (s: string)
    ensures EndsWith(s, message + Code(Reset))
  {
    var s := " " + Code(Grey) + "[" + colour + level + Code(Grey) + "] " + Code(White) + message + Code(Reset);
    assert s == (" " + Code(Grey) + "[" + colour + level + Code(Grey) + "] " + Code(White)) + (message + Code(Reset));
    s
  }

  /** The shape of a console line, given its time, log-name segment, level colour, level and message. */
  function ConsoleText(time: string, segment: string, colour: string, level: string, message: string): (s: string)
    ensures EndsWith(s, message + Code(Reset))
  {
    var part := LevelPart(colour, level, message);
    assert EndsWith(part, message + Code(Reset));
    time + (segment + part)
  }

  /** The part of a file line after the log-name segment: ` [LEVEL] message` and a newline. */
  function PlainLevelPart(level: string, message: string): (s: string)
    ensures EndsWith(s, message + "\n")
  {
    var s := " [" + level + "] " + message + "\n";
    assert s == (" [" + level + "] ") + (message + "\n");
    s
  }

  /** The shape of a file line, given its date, log-name segment, level and message. */
  function FileText(date: string, segment: string, level: string, message: string): (s: string)
    ensures EndsWith(s, message + "\n")
  {
    var part := PlainLevelPart(level, message);
    assert EndsWith(part, message + "\n");
    date + (segment + part)
  }

  predicate EndsWith(s: string, suffix: string) {
    |suffix| <= |s| && s[|s| - |suffix|..] == suffix
  }

  /** The console line: coloured time, log name, level name in `colour`, message, RESET. */
  function ConsoleLine(lg: Logger, d: DateTime, m: Message, level: int, colour: string): (s: string)
    ensures EndsWith(s, MessageText(m) + Code(Reset))
  {
    ConsoleText(DateString(d, true, TIME).value, LogNameSegment(lg.config, true), colour,
                LevelText(lg.levels, level), MessageText(m))
  }

  /** The file line: plain FULL date, log name, `[LEVEL]`, message and one newline. */
  function FileLine(lg: Logger, d: DateTime, m: Message, level: int): (s: string)
    ensures EndsWith(s, MessageText(m) + "\n")
  {
    FileText(DateString(d, false, FULL).value, LogNameSegment(lg.config, false),
             LevelText(lg.levels, level), MessageText(m))
  }

  /** The interface method that was called. */
  datatype Call = InfoCall | WarningCall | ErrorCall | LogCall

  /** One `fs.appendFile(path, content)`. */
  datatype Append = Append(path: string, content: string)

  /** Everything one call emits: the console line and the appends, in order. */
  datatype Output = Output(console: string, appends: seq<Append>)

  /** The files a call appends to: none without files, both for errors, else the output file. */
  function Targets(c: Config, call: Call): (paths: seq<string>)
    requires Consistent(c)
    ensures !c.useFiles ==> paths == []
    ensures c.useFiles && call == ErrorCall ==> paths == [c.outputPath.value, c.errorPath.value]
    ensures c.useFiles && call != ErrorCall ==> paths == [c.outputPath.value]
  {
    if !c.useFiles then []
    else if call == ErrorCall then [c.outputPath.value, c.errorPath.value]
    else [c.outputPath.value]
  }

  /** The same content appended to each path in turn. */
  function AppendAll(paths: seq<string>, content: string): (r: seq<Append>)
    ensures |r| == |paths|
    ensures forall i :: 0 <= i < |r| ==> r[i] == Append(paths[i], content)
  {
    if |paths| == 0 then [] else [Append(paths[0], content)] + AppendAll(paths[1..], content)
  }

  /**
   One `_logMessage` call and its appends. The console time and the file stamp come from
   two separate `new Date()` reads, so they are separate parameters.
   */
  function Emit(lg: Logger, consoleTime: DateTime, fileTime: DateTime, m: Message, level: int, colour: string,
                call: Call): (out: Output)
    requires Consistent(lg.config)
    ensures out.console == ConsoleLine(lg, consoleTime, m, level, colour)
    ensures |out.appends| == |Targets(lg.config, call)|
    ensures forall i :: 0 <= i < |out.appends| ==>
              out.appends[i] == Append(Targets(lg.config, call)[i], FileLine(lg, fileTime, m, level))
  {
    Output(ConsoleLine(lg, consoleTime, m, level, colour),
           AppendAll(Targets(lg.config, call), FileLine(lg, fileTime, m, level)))
  }

  /** `info(message)`: INFO in BLUE; appended to the output file only, when files are used. */
  function Info(lg: Logger, consoleTime: DateTime, fileTime: DateTime, m: Message): (out: Output)
    requires Consistent(lg.config)
    ensures out.console == ConsoleLine(lg, consoleTime, m, INFO, Code(Blue))
    ensures out.appends == if lg.config.useFiles
                           then [Append(lg.config.outputPath.value, FileLine(lg, fileTime, m, INFO))] else []
  {
    Emit(lg, consoleTime, fileTime, m, INFO, Code(Blue), InfoCall)
  }

  /** `warning(message)`: WARN in YELLOW; appended to the output file only. */
  function Warning(lg: Logger, consoleTime: DateTime, fileTime: DateTime, m: Message): (out: Output)
    requires Consistent(lg.config)
    ensures out.console == ConsoleLine(lg, consoleTime, m, WARN, Code(Yellow))
    ensures out.appends == if lg.config.useFiles
                           then [Append(lg.config.outputPath.value, FileLine(lg, fileTime, m, WARN))] else []
  {
    Emit(lg, consoleTime, fileTime, m, WARN, Code(Yellow), WarningCall)
  }

  /** `error(message)`: ERROR in RED; appended to the output file and then the error file. */
  function Error(lg: Logger, consoleTime: DateTime, fileTime: DateTime, m: Message): (out: Output)
    requires Consistent(lg.config)
    ensures out.console == ConsoleLine(lg, consoleTime, m, ERROR, Code(Red))
    ensures out.appends == if lg.config.useFiles
                           then [Append(lg.config.outputPath.value, FileLine(lg, fileTime, m, ERROR)),
                                 Append(lg.config.errorPath.value, FileLine(lg, fileTime, m, ERROR))]
                           else []
  {
    Emit(lg, consoleTime, fileTime, m, ERROR, Code(Red), ErrorCall)
  }

  /** `log(message, level, colour)`: any level index and colour string; output file only. */
  function Log(lg: Logger, consoleTime: DateTime, fileTime: DateTime, m: Message, level: int, colour: string)
    : (out: Output)
    requires Consistent(lg.config)
    ensures out.console == ConsoleLine(lg, consoleTime, m, level, colour)
    ensures out.appends == if lg.config.useFiles
                           then [Append(lg.config.outputPath.value, FileLine(lg, fileTime, m, level))] else []
  {
    Emit(lg, consoleTime, fileTime, m, level, colour, LogCall)
  }

  /** `addLevel(name)` on the logger's own registry. */
  function AddLevelTo(lg: Logger, name: string): (lg': Logger)
    requires ValidLogger(lg)
    requires Upper(name) !in lg.levels.byName
    requires !IsIndexKey(Upper(name))
    ensures ValidLogger(lg')
    ensures lg'.config == lg.config
    ensures LevelText(lg'.levels, Count(lg.levels)) == Upper(name)
    ensures forall i :: i in lg.levels.byIndex ==> LevelText(lg'.levels, i) == LevelText(lg.levels, i)
  {
    lg.(levels := AddLevel(lg.levels, name))
  }

  /** `setLogName(name)` on the logger's own configuration. */
  function SetLogNameOf(lg: Logger, name: Option<string>, callerFile: string): (lg': Logger)
    requires ValidLogger(lg)
    ensures ValidLogger(lg')
    ensures lg'.levels == lg.levels
    ensures lg'.config.logName == Some(NameOr(name, callerFile))
    ensures lg'.config.useLogName == lg.config.useLogName && lg'.config.useFiles == lg.config.useFiles
  {
    lg.(config := SetLogName(lg.config, name, callerFile))
  }

  // The console line and the file line agree.

  /** Escape-free parts: the log name (when shown), the level name and the message text. */
  predicate PlainParts(lg: Logger, m: Message, level: int) {
    && (lg.config.useLogName ==> NoEscape(NameText(lg.config)))
    && NoEscape(LevelText(lg.levels, level))
    && NoEscape(MessageText(m))
  }

  /** What both lines carry after their time: the log-name segment, ` [LEVEL] ` and the message. */
  function LineTail(segment: string, level: string, message: string): string {
    segment + " [" + level + "] " + message
  }

  /** Stripping a console line leaves the time, the plain segment, `[LEVEL]` and the message. */
  lemma {:induction false} ConsoleTextStrip(timeBody: string, named: bool, name: string, colour: string, level: string, message: string)
    requires NoEscape(timeBody) && (named ==> NoEscape(name)) && IsSequence(colour)
    requires NoEscape(level) && NoEscape(message)
    ensures Strip(ConsoleText(Code(Grey) + timeBody + Code(Reset), TagText(named, name, true), colour, level, message))
            == timeBody + LineTail(TagText(named, name, false), level, message)
  {
    var seg := TagText(named, name, true);
    var rest := LevelPart(colour, level, message);
    var plain := TagText(named, name, false);
    assert Strip(ConsoleText(Code(Grey) + timeBody + Code(Reset), seg, colour, level, message))
        == timeBody + Strip(seg + rest) by {
      StripWrapped(Code(Grey), timeBody, Code(Reset), seg + rest);
    }
    assert Strip(seg + rest) == plain + Strip(rest) by {
      TagTextStrip(named, name, rest);
    }
    assert Strip(rest) == " [" + level + "] " + message by {
      StripLevelTag(Code(Grey), colour, level, Code(White), message, Code(Reset));
    }
    Regroup(timeBody, plain, level, message);
  }

  lemma Regroup(timeBody: string, segment: string, level: string, message: string)
    ensures timeBody + (segment + (" [" + level + "] " + message))
            == timeBody + LineTail(segment, level, message)
  {
  }

  lemma FileTextRegroup(day: string, timeBody: string, segment: string, level: string, message: string)
    ensures FileText(day + " " + timeBody, segment, level, message)
            == day + " " + (timeBody + LineTail(segment, level, message)) + "\n"
  {
  }

  /**
   The console line, once its colour codes are removed, is its time followed by the same
   log name, level name and message the file line carries after its day part and time.
   The two times come from separate clock reads and may differ.
   */
  lemma ConsoleMatchesFile(lg: Logger, consoleTime: DateTime, fileTime: DateTime, m: Message, level: int,
                           colour: string)
    requires PlainParts(lg, m, level) && IsSequence(colour)
    ensures var tail := LineTail(LogNameSegment(lg.config, false), LevelText(lg.levels, level), MessageText(m));
            && Strip(ConsoleLine(lg, consoleTime, m, level, colour)) == TimeBody(consoleTime) + tail
            && FileLine(lg, fileTime, m, level) == DayString(fileTime, false) + " " + (TimeBody(fileTime) + tail) + "\n"
  {
    ConsoleLineStripped(lg, consoleTime, m, level, colour);
    FileLineShape(lg, fileTime, m, level);
  }

  /** The console half: strip the colour codes and the time body leads the shared tail. */
  lemma ConsoleLineStripped(lg: Logger, t: DateTime, m: Message, level: int, colour: string)
    requires PlainParts(lg, m, level) && IsSequence(colour)
    ensures Strip(ConsoleLine(lg, t, m, level, colour))
            == TimeBody(t) + LineTail(LogNameSegment(lg.config, false), LevelText(lg.levels, level), MessageText(m))
  {
    var c := lg.config;
    var tb := TimeBody(t);
    assert NoEscape(tb) by {
      BodiesNoEscape(t);
    }
    assert DateString(t, true, TIME).value == Code(Grey) + tb + Code(Reset);
    ConsoleTextStrip(tb, c.useLogName, NameText(c), colour, LevelText(lg.levels, level), MessageText(m));
  }

  /** The file half: the day part, a space, the time body and the shared tail, then a newline. */
  lemma FileLineShape(lg: Logger, t: DateTime, m: Message, level: int)
    ensures FileLine(lg, t, m, level)
            == DayString(t, false) + " "
               + (TimeBody(t) + LineTail(LogNameSegment(lg.config, false), LevelText(lg.levels, level), MessageText(m)))
               + "\n"
  {
    var c := lg.config;
    assert DateString(t, false, FULL).value == DayString(t, false) + " " + TimeBody(t);
    FileTextRegroup(DayString(t, false), TimeBody(t), TagText(c.useLogName, NameText(c), false),
                    LevelText(lg.levels, level), MessageText(m));
  }

  /**
   When both clock reads of a call give the same date, the file line is the plain day part,
   a space, the console line with its colour codes removed, and a newline.
   */
  lemma ConsoleMatchesFileOneClock(lg: Logger, d: DateTime, m: Message, level: int, colour: string)
    requires PlainParts(lg, m, level) && IsSequence(colour)
    ensures FileLine(lg, d, m, level) == DayString(d, false) + " " + Strip(ConsoleLine(lg, d, m, level, colour)) + "\n"
  {
    ConsoleMatchesFile(lg, d, d, m, level, colour);
  }

  /** Without escape characters in name, level and message, the file line holds none either. */
  lemma FileLinePlain(lg: Logger, d: DateTime, m: Message, level: int)
    requires PlainParts(lg, m, level)
    ensures NoEscape(FileLine(lg, d, m, level))
  {
    var console := ConsoleLine(lg, d, m, level, Code(White));
    var day := DayString(d, false);
    ConsoleMatchesFileOneClock(lg, d, m, level, Code(White));
    StripLeavesNoEscape(console, 0);
    assert NoEscape(day) by {
      DayStringStrip(d, []);
    }
    NoEscapeConcat(day, " ");
    NoEscapeConcat(day + " ", Strip(console));
    NoEscapeConcat(day + " " + Strip(console), "\n");
  }

  // Reading a file line back.

  /** The position of the first `c` at or after `from`, or `|s|` when there is none. */
  function FirstIndex(s: string, c: char, from: nat): (r: nat)
    requires from <= |s|
    ensures from <= r <= |s|
    ensures r < |s| ==> s[r] == c
    ensures forall k :: from <= k < r ==> s[k] != c
    decreases |s| - from
  {
    if from == |s| then |s| else if s[from] == c then from else FirstIndex(s, c, from + 1)
  }

  /** Splits ` [x]rest` into `x` and `rest`; `x` ends at the first ']'. */
  function ParseTag(s: string): (r: Option<(string, string)>)
    ensures r.Some? ==> s == " [" + r.value.0 + "]" + r.value.1
  {
    if |s| >= 2 && s[0] == ' ' && s[1] == '[' then
      var j := FirstIndex(s, ']', 2);
      if j < |s| then Some((s[2..j], s[j + 1..])) else None
    else None
  }

  lemma ParseTagOf(x: string, rest: string)
    requires ']' !in x
    ensures ParseTag(" [" + x + "]" + rest) == Some((x, rest))
  {
    var s := " [" + x + "]" + rest;
    assert forall k :: 2 <= k < 2 + |x| ==> s[k] == x[k - 2];
    assert s[2 + |x|] == ']';
    var j := FirstIndex(s, ']', 2);
    assert j == 2 + |x|;
    assert s[2..j] == x;
    assert s[j + 1..] == rest;
  }

  /** What a file line holds: its time stamp, the log name if any, the level name and the message. */
  datatype Entry = Entry(stamp: Stamp, name: Option<string>, level: string, message: string)

  /** Reads a file line; `named` says whether the logger writes a log-name segment. */
  function ParseFileLine(line: string, named: bool): (r: Option<Entry>)
    ensures r.Some? ==> |line| >= 20 && line[|line| - 1] == '\n'
    ensures r.Some? ==> (r.value.name.Some? <==> named)
  {
    if |line| < 20 || line[|line| - 1] != '\n' then None
    else
      match ParseFull(line[..19])
      case None => None
      case Some(stamp) =>
        var body := line[19..|line| - 1];
        var named': Option<(Option<string>, string)> :=
          if named then
            (match ParseTag(body) case None => None case Some(p) => Some((Some(p.0), p.1)))
          else Some((None, body));
        match named'
        case None => None
        case Some(p) =>
          match ParseTag(p.1)
          case None => None
          case Some(q) =>
            if |q.1| >= 1 && q.1[0] == ' ' then Some(Entry(stamp, p.0, q.0, q.1[1..])) else None
  }

  /** Where the parts of a file line sit. */
  lemma FileTextLayout(date: string, segment: string, level: string, message: string)
    requires |date| == 19
    ensures var line := FileText(date, segment, level, message);
      && |line| >= 20 && line[|line| - 1] == '\n' && line[..19] == date
      && line[19..|line| - 1] == segment + (" [" + level + "]" + (" " + message))
  {
    var line := FileText(date, segment, level, message);
    var rest := " [" + level + "]" + (" " + message);
    assert PlainLevelPart(level, message) == rest + "\n";
    assert line == date + (segment + rest) + "\n";
  }

  /** Parsing a line whose parts are known. */
  lemma {:induction false} ParseLineOf(line: string, stamp: Stamp, named: bool, name: string, level: string, message: string)
    requires |line| >= 20 && line[|line| - 1] == '\n' && ParseFull(line[..19]) == Some(stamp)
    requires line[19..|line| - 1] == TagText(named, name, false) + (" [" + level + "]" + (" " + message))
    requires named ==> ']' !in name
    requires ']' !in level
    ensures ParseFileLine(line, named) == Some(Entry(stamp, if named then Some(name) else None, level, message))
  {
    var rest := " [" + level + "]" + (" " + message);
    var body := line[19..|line| - 1];
    assert ParseTag(rest) == Some((level, " " + message)) by {
      ParseTagOf(level, " " + message);
    }
    if named {
      assert ParseTag(body) == Some((name, rest)) by {
        ParseTagOf(name, rest);
      }
    } else {
      assert body == rest;
    }
    assert (" " + message)[1..] == message;
  }

  /** A line of the file shape reads back into its parts. */
  lemma FileTextRoundTrip(date: string, stamp: Stamp, named: bool, name: string, level: string, message: string)
    requires |date| == 19 && ParseFull(date) == Some(stamp)
    requires named ==> ']' !in name
    requires ']' !in level
    ensures ParseFileLine(FileText(date, TagText(named, name, false), level, message), named)
            == Some(Entry(stamp, if named then Some(name) else None, level, message))
  {
    var line := FileText(date, TagText(named, name, false), level, message);
    FileTextLayout(date, TagText(named, name, false), level, message);
    ParseLineOf(line, stamp, named, name, level, message);
  }

  /**
   A file line reads back as the date it was stamped with (year modulo one hundred, month
   0-based), the log name exactly when names are on, the level name and the message text,
   provided no ']' in the name or level name makes the brackets ambiguous.
   */
  lemma FileLineRoundTrip(lg: Logger, d: DateTime, m: Message, level: int)
    requires DayFieldsFit(d)
    requires lg.config.useLogName ==> ']' !in NameText(lg.config)
    requires ']' !in LevelText(lg.levels, level)
    ensures ParseFileLine(FileLine(lg, d, m, level), lg.config.useLogName)
            == Some(Entry(Stamp(d.day, d.month, d.year % 100, Clock(d.hours, d.minutes, d.seconds)),
                          if lg.config.useLogName then Some(NameText(lg.config)) else None,
                          LevelText(lg.levels, level), MessageText(m)))
  {
    FullStringRoundTrip(d);
    FileTextRoundTrip(DateString(d, false, FULL).value,
                      Stamp(d.day, d.month, d.year % 100, Clock(d.hours, d.minutes, d.seconds)),
                      lg.config.useLogName, NameText(lg.config), LevelText(lg.levels, level), MessageText(m));
  }

  // Sink routing.

  /** With files off, no call appends anything; the console line is written regardless. */
  lemma NoFilesNoAppends(lg: Logger, dc: DateTime, df: DateTime, m: Message, level: int, colour: string)
    requires Consistent(lg.config)
    requires !lg.config.useFiles
    ensures Info(lg, dc, df, m).appends == [] && Warning(lg, dc, df, m).appends == []
    ensures Error(lg, dc, df, m).appends == [] && Log(lg, dc, df, m, level, colour).appends == []
  {
  }

  /**
   With files on, an error is appended to the output file and to the error file, each time
   as the same newline-terminated line that ends in the message; every other call touches
   the output file only.
   */
  lemma ErrorReachesBothFiles(lg: Logger, dc: DateTime, df: DateTime, m: Message)
    requires Consistent(lg.config)
    requires lg.config.useFiles
    ensures |Error(lg, dc, df, m).appends| == 2
    ensures Error(lg, dc, df, m).appends[0].path == lg.config.outputPath.value
    ensures Error(lg, dc, df, m).appends[1].path == lg.config.errorPath.value
    ensures Error(lg, dc, df, m).appends[0].content == Error(lg, dc, df, m).appends[1].content
    ensures forall a :: a in Error(lg, dc, df, m).appends ==> EndsWith(a.content, MessageText(m) + "\n")
    ensures forall a :: a in Info(lg, dc, df, m).appends ==> a.path == lg.config.outputPath.value
    ensures forall a :: a in Warning(lg, dc, df, m).appends ==> a.path == lg.config.outputPath.value
  {
    var line := FileLine(lg, df, m, ERROR);
    assert EndsWith(line, MessageText(m) + "\n");
  }

  /** The routing rule stated per file: the output file takes every line, the error file only errors. */
  predicate Receives(c: Config, call: Call, path: string)
    requires Consistent(c)
  {
    c.useFiles && (path == c.outputPath.value || (call == ErrorCall && path == c.errorPath.value))
  }

  /**
   The appends of any call go exactly to the files that receive it, each carrying the file
   line stamped with the file time, and the output file always comes first.
   */
  lemma EmitRoutes(lg: Logger, dc: DateTime, df: DateTime, m: Message, level: int, colour: string,
                   call: Call, path: string)
    requires Consistent(lg.config)
    ensures var out := Emit(lg, dc, df, m, level, colour, call);
            (exists i :: 0 <= i < |out.appends| && out.appends[i].path == path) <==> Receives(lg.config, call, path)
    ensures var out := Emit(lg, dc, df, m, level, colour, call);
            forall a :: a in out.appends ==> a.content == FileLine(lg, df, m, level)
    ensures var out := Emit(lg, dc, df, m, level, colour, call);
            lg.config.useFiles ==> |out.appends| > 0 && out.appends[0].path == lg.config.outputPath.value
  {
    TargetsRoute(lg.config, call, path, FileLine(lg, df, m, level));
  }

  lemma TargetsRoute(c: Config, call: Call, path: string, content: string)
    requires Consistent(c)
    ensures var r := AppendAll(Targets(c, call), content);
            (exists i :: 0 <= i < |r| && r[i].path == path) <==> Receives(c, call, path)
    ensures forall a :: a in AppendAll(Targets(c, call), content) ==> a.content == content
    ensures c.useFiles ==> |AppendAll(Targets(c, call), content)| > 0
                           && AppendAll(Targets(c, call), content)[0].path == c.outputPath.value
  {
    var r := AppendAll(Targets(c, call), content);
    if Receives(c, call, path) {
      var i := if path == c.outputPath.value then 0 else 1;
      assert r[i].path == path;
    } else {
      forall i | 0 <= i < |r|
        ensures r[i].path != path
      {
        assert r[i].path == Targets(c, call)[i];
      }
    }
  }

  // The scenarios of the package's test script.

  lemma FileTextSegmentAt(date: string, segment: string, level: string, message: string)
    ensures FileText(date, segment, level, message)[|date|..|date| + |segment|] == segment
    ensures FileText(date, "", level, message) == date + " [" + level + "] " + message + "\n"
  {
    assert FileText(date, segment, level, message) == date + segment + (" [" + level + "] " + message + "\n");
  }

  /** `logName: "Tests"`: every file line carries ` [Tests]` right after the time stamp. */
  lemma NamedLoggerTagsLines(logsDir: string, callerFile: string, d: DateTime, m: Message, level: int)
    requires DayFieldsFit(d)
    ensures var lg := Create(Some(NoOptions.(logName := Some("Tests"))), logsDir, callerFile);
            FileLine(lg, d, m, level)[19..27] == " [Tests]"
  {
    var lg := Create(Some(NoOptions.(logName := Some("Tests"))), logsDir, callerFile);
    TestsSegment(logsDir, callerFile);
    SegmentAfterStamp(lg, d, m, level);
  }

  /** The log-name segment of a file line starts right after the 19-character stamp. */
  lemma SegmentAfterStamp(lg: Logger, d: DateTime, m: Message, level: int)
    requires DayFieldsFit(d)
    ensures 19 + |LogNameSegment(lg.config, false)| <= |FileLine(lg, d, m, level)|
    ensures FileLine(lg, d, m, level)[19..19 + |LogNameSegment(lg.config, false)|] == LogNameSegment(lg.config, false)
  {
    var date := DateString(d, false, FULL).value;
    assert |date| == 19 by {
      FullStringRoundTrip(d);
    }
    FileTextSegmentAt(date, LogNameSegment(lg.config, false), LevelText(lg.levels, level), MessageText(m));
  }

  lemma TestsSegment(logsDir: string, callerFile: string)
    ensures LogNameSegment(Resolve(Some(NoOptions.(logName := Some("Tests"))), logsDir, callerFile), false) == " [Tests]"
  {
    var c := Resolve(Some(NoOptions.(logName := Some("Tests"))), logsDir, callerFile);
    assert c.useLogName && NameText(c) == "Tests";
  }

  /** Without a log name the level tag follows the time stamp directly. */
  lemma UnnamedLoggerOmitsTag(logsDir: string, callerFile: string, d: DateTime, m: Message)
    ensures var lg := Create(None, logsDir, callerFile);
            FileLine(lg, d, m, INFO) == DateString(d, false, FULL).value + " [INFO] " + MessageText(m) + "\n"
  {
    var lg := Create(None, logsDir, callerFile);
    assert LogNameSegment(lg.config, false) == "" && LevelText(lg.levels, INFO) == "INFO" by {
      assert !lg.config.useLogName && lg.levels == Initial;
    }
    UnnamedFileText(DateString(d, false, FULL).value, MessageText(m));
  }

  lemma UnnamedFileText(date: string, message: string)
    ensures FileText(date, "", "INFO", message) == date + " [INFO] " + message + "\n"
  {
    FileTextSegmentAt(date, "", "INFO", message);
    assert " [" + "INFO" + "] " == " [INFO] ";
  }

  /** `addLevel("CUSTOM")` then `log(msg, Level.CUSTOM, Colour.MAGENTA)` prints the level as CUSTOM. */
  lemma CustomLevelIsPrinted(options: Option<Options>, logsDir: string, callerFile: string, d: DateTime, m: Message)
    ensures var lg := Create(options, logsDir, callerFile);
            Upper("CUSTOM") !in lg.levels.byName && !IsIndexKey(Upper("CUSTOM"))
    ensures var lg := AddLevelTo(Create(options, logsDir, callerFile), "CUSTOM");
            FileLine(lg, d, m, 3)
            == FileText(DateString(d, false, FULL).value, LogNameSegment(lg.config, false), "CUSTOM", MessageText(m))
  {
    AddCustomLevel();
  }
}

=== FILE: wrappers.dfy ===
/** The optional-value datatype the rest of the model uses for JavaScript's `undefined`. */
module Wrappers {

  datatype Option<+T> = None | Some(value: T) {

    /** Returns the value in Some, or the given default when None. */
    function GetOr(default: T): T {
      match this
      case Some(v) => v
      case None => default
    }
  }
}
